=== FILE: README.md ===
# ABACUS Task Manager API — the in-memory task store, in Dafny

This project models the logic of `app/main.py` (version 0.1.0 of the ABACUS Task
Manager API). The service keeps three process-wide dictionaries: `TASKS`, `REMINDERS` and
`NOTIFICATIONS`. Its endpoints read and rewrite them. The model makes that state an
immutable `Store` value. Each dictionary is an insertion-ordered map (`OrderedDict.Dict`):
a `map` plus the sequence of its keys, as a Python `dict` keeps them. Every endpoint is a
pure function or method from the current store to the next one and its output. A failure
is a `Result.Err` carrying the 404 the endpoint raises: `TaskNotFound`, `ReminderNotFound`
or `NotificationNotFound`. A failed operation returns no store, so it cannot change one.

Modules:

- `Common`: ids, clock readings, `Option`, `Result` and the error kinds.
- `Seqs`: order-preserving filtering (`Keep`), Python's list comprehension with an `if`.
- `OrderedDict`: dict assignment, `del`, `pop(k, None)` and `list(d.values())`.
- `Text`: ASCII lower-casing, `needle in hay` and `hay.find(needle)`.
- `Paging`: the slice `items[offset : offset + limit]`.
- `Model`: `Priority`, `Status` and `NotificationType`; the task, reminder and notification
  records; the field bounds of the request schemas; the PATCH body and how it applies.
- `TaskStore`: the store, its invariant, and create / get / replace / patch / delete plus
  the status, progress and assignee shortcuts.
- `Bulk`: `bulk_set_status` and `bulk_delete`.
- `Listing`: `_apply_filters` and `list_tasks`.
- `Reminders` and `Notifications`: the endpoints of those two collections.

The store invariant `TaskStore.Valid` says three things. Every dictionary's key order
lists each key exactly once. Every record is stored under its own id. Every task respects
the schema bounds: a title of 1..200 characters and a progress of 0..100. Every operation
that returns a store requires the invariant and re-establishes it.

This version of `app/main.py` has no caller identity, no access check and no code that
creates a notification, so the model has none of them either (see "Left out").

## Model

| member | source | states |
|---|---|---|
| `Seqs.Keep` | app/main.py:128-138 | a list comprehension with a condition keeps exactly the elements that satisfy it, and never lengthens the list |
| `Seqs.KeepAppend` | app/main.py:130-137 | filtering distributes over concatenation, so it never reorders what it keeps |
| `Seqs.KeepFuse4` | app/main.py:128-138 | four successive filters equal one filter by the conjunction of their conditions |
| `Seqs.KeepDistinct` | app/main.py:344 | filtering a duplicate-free list leaves it duplicate-free |
| `OrderedDict.Put` | app/main.py:172 | assigning a key keeps the dict well formed; a present key keeps its place, a new key goes last |
| `OrderedDict.Remove` | app/main.py:222 | `del` removes the key from both the map and the key order, and keeps the dict well formed |
| `OrderedDict.Discard` | app/main.py:309 | `pop(k, None)` removes the key when present and changes nothing otherwise; it never fails |
| `OrderedDict.DiscardAllRemovesListed` | app/main.py:308-309 | popping every listed key removes exactly the listed keys and keeps the remaining keys in their order |
| `OrderedDict.Values` | app/main.py:154 | `list(d.values())` has one value per key, in key-insertion order, and holds exactly the stored values |
| `OrderedDict.ValuesAfterPut` | app/main.py:336-344 | storing under a new key appends its value to the end of `values()` and keeps the earlier values in order |
| `OrderedDict.ValuesAfterRemove` | app/main.py:352 | `del d[k]` removes exactly the value under `k` from `values()` and keeps the rest in order |
| `OrderedDict.KeyedValuesDistinct` | app/main.py:344 | records stored under their own ids appear in `values()` without repetition |
| `Text.Lower` | app/main.py:136-137 | the result has the same length and no upper-case letter; every other character is kept, and each upper-case letter becomes its lower-case partner |
| `Text.LowerIdempotent` | app/main.py:136-137 | lower-casing twice is lower-casing once |
| `Text.ContainsIsOccurs` | app/main.py:137 | `s in title.lower()` holds exactly when the needle occurs at some position of the text |
| `Text.FindFrom` | app/main.py:137 | `find` returns the first position where the needle occurs, or -1 when there is none |
| `Text.Find` | app/main.py:137 | `find(s) >= 0` holds exactly when the needle occurs; a found position is the first one |
| `Text.FindAgreesWithContains` | app/main.py:137 | the two substring tests used on the title and on the description agree |
| `Paging.Page` | app/main.py:156 | the page is the contiguous run from `offset`, of length `min(limit, max(0, n - offset))` |
| `Paging.PageSplit` | app/main.py:156 | two consecutive pages together are the page spanning both: nothing is skipped or repeated |
| `Paging.PageWhole` | app/main.py:156 | a page from 0 at least as long as the list is the whole list |
| `Model.ApplyPatch` | app/main.py:209-213 | a PATCH overwrites exactly the fields it gives and keeps every other one; a valid patch keeps a task within the schema bounds |
| `Model.NoChangeIsIdentity` | app/main.py:210-211 | a PATCH that gives no field changes no editable field |
| `Model.FullPatchReplaces` | app/main.py:186-198 | a PATCH giving every field yields the same editable fields as a PUT with those values |
| `Model.PatchIdempotent` | app/main.py:209-213 | applying the same PATCH twice equals applying it once |
| `Model.WithStatus` | app/main.py:246-249 | setting the status is the PATCH that gives only the status, with a fresh `updated_at` and identity fields kept |
| `TaskStore.EmptyStore` | app/main.py:95 | the initial store is well formed and empty |
| `TaskStore.Overwrite` | app/main.py:199 | writing a new version of a present task changes that key only, keeps its place and keeps the store well formed |
| `TaskStore.CreateTask` | app/main.py:159-173 | create adds exactly the fresh key last, copies the payload, stamps created and updated time with `now`, sets no team, and leaves every other task and collection alone |
| `TaskStore.GetTask` | app/main.py:177-181 | get fails with task-not-found exactly when the id is absent, and otherwise returns the stored task |
| `TaskStore.ReplaceTask` | app/main.py:184-200 | replace fails exactly on a missing id; otherwise it keeps id, creation time, creator and team, takes every editable field from the payload, stamps `now` and changes no other key |
| `TaskStore.UpdateTask` | app/main.py:203-215 | patch fails exactly on a missing id; otherwise only the given fields and `updated_at` change, in place, and the bounds still hold |
| `TaskStore.DeleteTask` | app/main.py:218-223 | delete fails exactly on a missing id; otherwise it removes that key only and leaves reminders and notifications alone |
| `TaskStore.SetStatus` | app/main.py:241-251 | the status shortcut fails exactly on a missing id; otherwise it changes only the status and `updated_at` |
| `TaskStore.SetProgress` | app/main.py:254-264 | the progress shortcut fails exactly on a missing id; otherwise it changes only the progress and `updated_at`, and progress stays within 0..100 |
| `TaskStore.SetAssignee` | app/main.py:267-277 | the assignee shortcut fails exactly on a missing id; otherwise it changes only the assignee (possibly to none) and `updated_at` |
| `TaskStore.ReplaceIsFullUpdate` | app/main.py:184-215 | a PUT is the PATCH that gives every field, on every store and id, including the not-found case |
| `TaskStore.ShortcutsAreUpdates` | app/main.py:241-277 | each shortcut is the PATCH that gives only its one field, including the not-found case |
| `TaskStore.CreateGetDelete` | app/main.py:159-223 | a created task reads back as created; after deleting it, get fails with task-not-found |
| `TaskStore.CreateThenDeleteRestores` | app/main.py:159-223 | creating a task and then deleting it gives back exactly the store it started from, key order included |
| `Bulk.Hits` | app/main.py:295-296 | positions of listed ids that name tasks, in range and increasing; `Bulk.HitsComplete` proves none is missed |
| `Bulk.HitsComplete` | app/main.py:295-296 | every position of a listed id that names a task is visited by the update |
| `Bulk.BulkRunStamped` | app/main.py:295-301 | after the loop has processed some ids, each listed task carries the new status and the clock reading of its last listing, and every other task is as before |
| `Bulk.BulkRunReported` | app/main.py:295-302 | after the loop has processed some ids, the output holds one updated task per listed id that names a task, in request order |
| `Bulk.HitsFollowIds` | app/main.py:295-303 | the updated tasks come back one per listed id that names a task, in the order of the request |
| `Bulk.BulkSetStatus` | app/main.py:292-303 | unknown ids are skipped; each listed task gets the status and the clock reading of its last listing; unlisted tasks and the key order are unchanged; the output lists each updated task in request order |
| `Bulk.BulkDelete` | app/main.py:306-310 | bulk delete never fails and removes exactly the listed ids that are present, keeping the order of the others and every other collection |
| `Listing.ApplyFilters` | app/main.py:123-138 | a task is in the filtered list exactly when it is in the input and meets every given criterion |
| `Listing.ApplyFiltersIsOnePass` | app/main.py:123-138 | the staged filters equal one pass keeping exactly the matching tasks in their original order |
| `Listing.NoFilterKeepsAll` | app/main.py:128-138 | with no criteria the list is returned unchanged |
| `Listing.EmptySearchImposesNothing` | app/main.py:135 | an empty search string filters like no search string |
| `Listing.SearchIgnoresCase` | app/main.py:136-137 | searching for a string or for its lower-cased form gives the same tasks |
| `Listing.ListTasks` | app/main.py:145-156 | the listing is the run of filtered tasks from `offset`, of length `min(limit, max(0, n - offset))` and never over `limit`, each a stored task meeting the criteria |
| `Listing.CreatedWithDefaultsIsListed` | app/main.py:59-66 | a task created from a title alone (defaults: medium priority, not started, no assignee) is listed under the not-started and medium-priority filters, and under no assignee filter |
| `Listing.ListEverything` | app/main.py:154-156 | unfiltered from offset 0 with a limit covering the store, the listing is every task in insertion order |
| `Listing.ConsecutivePages` | app/main.py:156 | two consecutive pages of the listing together equal one page of twice the size |
| `Reminders.CreateReminder` | app/main.py:330-337 | creating a reminder fails exactly when the task is missing; otherwise it adds exactly the fresh reminder, last, and leaves tasks and notifications alone |
| `Reminders.ListReminders` | app/main.py:340-344 | listing fails exactly when the task is missing; otherwise it returns exactly the stored reminders of that task, each once, in the order their keys were inserted |
| `Reminders.DeleteReminder` | app/main.py:347-353 | deleting fails exactly unless the reminder exists and belongs to the given task; otherwise it removes only that reminder, and the remaining reminders keep their order |
| `Reminders.CreatedReminderIsListed` | app/main.py:330-344 | a reminder just created is listed for its task |
| `Reminders.CreateAppendsToListing` | app/main.py:330-344 | after a reminder is created, its task's listing is the previous listing followed by the new reminder, so the listing is in creation order |
| `Reminders.DeleteDropsFromListing` | app/main.py:340-352 | after a reminder is deleted, every task's listing is its previous listing without that reminder, the rest in the same order |
| `Reminders.TaskDeletionOrphansReminders` | app/main.py:218-223 | deleting a task leaves its reminders stored and deletable, but they can no longer be listed |
| `Notifications.Filtered` | app/main.py:380-382 | with a read flag given, exactly the stored notifications with that flag; without one, all of them; each once, in key-insertion order (the values under the flagged keys, read off the key order) |
| `Notifications.ListNotifications` | app/main.py:378-383 | one page of the filtered notifications, by the same slice rule as tasks |
| `Notifications.MarkRead` | app/main.py:386-393 | marking fails exactly on a missing id; otherwise that notification is read, everything else about it and every other record is unchanged |
| `Notifications.MarkReadIdempotent` | app/main.py:386-393 | marking an already-read notification read again succeeds and changes nothing |
| `Notifications.MarkAllRead` | app/main.py:396-401 | every notification becomes read, with its other fields, the key set and the key order unchanged |
| `Notifications.MarkAllReadLeavesNoneUnread` | app/main.py:378-401 | after marking all read, every page of unread notifications is empty |
| `Notifications.MarkAllReadListsAllAsRead` | app/main.py:378-401 | after marking all read, the read filter lists every notification in order |
| `Notifications.MarkAllReadIdempotent` | app/main.py:396-401 | marking all read twice equals marking all read once |
| `Notifications.DeleteNotification` | app/main.py:404-409 | deleting fails exactly on a missing id; otherwise it removes only that notification, and the remaining notifications keep their order |
| `Notifications.DeleteDropsFromListing` | app/main.py:380-408 | after a notification is deleted, the listing under any read flag is the previous listing without it, the rest in the same order |

## Left out

- HTTP plumbing is not modelled: FastAPI routing, tags, CORS middleware, status codes and the `/health` endpoint (app/main.py:8-39, app/main.py:414-416). A 404 becomes an `Error` value.
- Request-schema validation is not modelled. The bounds it enforces are preconditions: `ValidBase` for create and replace, `ValidPatch` for PATCH, `ValidProgress` for the progress shortcut, and the `limit` ranges 1..100 and 1..200. The query defaults (limit 20 for tasks, 50 for notifications, offset 0) are filled in by the web framework; the model's callers always pass both.
- A PATCH that sets title, priority, status or progress to explicit null fails the response model's validation in the service. The model's `TaskPatch` cannot express that request: those fields are `Field<T>`. Only description, due date and assignee are `Field<Option<T>>`, and those three can be nulled.
- `uuid4()` is not modelled. Fresh ids for tasks and reminders are parameters that must not already be keys. The placeholder creator id is a parameter with no constraint.
- `datetime.utcnow()` is not modelled. Each operation takes the clock reading as a parameter. `bulk_set_status` reads the clock once per present id, so `Bulk.BulkSetStatus` takes one reading per listed id.
- Timestamps are plain integers. The model does not promise `updated_at >= created_at`, because the service does not check the clock.
- `Text.Lower`: folds only the ASCII letters A–Z. Python's `str.lower()` folds all of Unicode.
- The module-level seed task (app/main.py:103-117) is not modelled. It is one optional initial record; `TaskStore.EmptyStore` is the empty start.
- Concurrency is not modelled. Every operation is one atomic step on the store value.
- Users, roles, teams, task visibility, the mutate guard and notification creation are not modelled, because this version of `app/main.py` has none of them. For the same reason no operation adds a notification.
- `main.py` and `data_models/sample.py` are not modelled. They only return constant payloads and declare a schema.

=== FILE: bulk.dfy ===
/** The bulk endpoints: one status for many tasks, and deletion of many tasks. */
module Bulk {
  import opened Common
  import opened Model
  import Seqs
  import D = OrderedDict
  import opened TaskStore

  /** The position of the last occurrence of `k` in `xs`. */
  function LastIndex(xs: seq<Id>, k: Id): (r: nat)
    requires k in xs
    ensures r < |xs| && xs[r] == k
    ensures forall j :: r < j < |xs| ==> xs[j] != k
  {
    var n := |xs| - 1;
    if xs[n] == k then n
    else
      assert k in xs[..n] by {
        var i :| 0 <= i < |xs| && xs[i] == k;
        assert xs[..n][i] == k;
      }
      LastIndex(xs[..n], k)
  }

  /** The positions in `ids`, in increasing order, of the ids that are in `keys`. */
  function Hits(ids: seq<Id>, keys: set<Id>): (r: seq<nat>)
    ensures forall j :: 0 <= j < |r| ==> r[j] < |ids| && ids[r[j]] in keys
    ensures forall i, j :: 0 <= i < j < |r| ==> r[i] < r[j]
  {
    if ids == [] then []
    else
      var n := |ids| - 1;
      var front := Hits(ids[..n], keys);
      assert forall j :: 0 <= j < |front| ==> ids[..n][front[j]] == ids[front[j]];
      front + (if ids[n] in keys then [n] else [])
  }

  /** Every position of a listed id that names a task is a hit. */
  lemma {:induction false} HitsComplete(ids: seq<Id>, keys: set<Id>)
    ensures forall i :: 0 <= i < |ids| && ids[i] in keys ==> i in Hits(ids, keys)
  {
    if ids != [] {
      var n := |ids| - 1;
      var front := ids[..n];
      HitsComplete(front, keys);
      var all := Hits(front, keys) + (if ids[n] in keys then [n] else []);
      assert Hits(ids, keys) == all;
      forall i | 0 <= i < |ids| && ids[i] in keys ensures i in all {
        if i < n {
          assert front[i] == ids[i];
          assert i in Hits(front, keys);
        } else {
          assert all[|all| - 1] == n;
        }
      }
    }
  }

  /** The ids at the given positions. */
  function IdsAt(ids: seq<Id>, hits: seq<nat>): seq<Id>
    requires forall j :: 0 <= j < |hits| ==> hits[j] < |ids|
  {
    seq(|hits|, j requires 0 <= j < |hits| => ids[hits[j]])
  }

  /** The tasks the bulk status update returns are the listed ids that exist, in the listed order. */
  lemma {:induction false} HitsFollowIds(ids: seq<Id>, keys: set<Id>)
    ensures IdsAt(ids, Hits(ids, keys)) == Seqs.Keep(ids, D.Among(keys))
  {
    if ids != [] {
      var n := |ids| - 1;
      var front := ids[..n];
      var x := ids[n];
      HitsFollowIds(front, keys);
      assert ids == front + [x];
      Seqs.KeepAppend(front, [x], D.Among(keys));
      assert [x][1..] == [];
      var hitsFront := Hits(front, keys);
      var all := hitsFront + (if x in keys then [n] else []);
      assert Hits(ids, keys) == all;
      var l := IdsAt(ids, all);
      var r := IdsAt(front, hitsFront) + (if x in keys then [x] else []);
      assert |l| == |r|;
      forall j | 0 <= j < |l| ensures l[j] == r[j] {
        if j < |hitsFront| {
          assert ids[hitsFront[j]] == front[hitsFront[j]];
        }
      }
      assert l == r;
    }
  }

  lemma LastIndexAppend(xs: seq<Id>, x: Id, k: Id)
    requires k in xs + [x]
    ensures LastIndex(xs + [x], k) == if x == k then |xs| else LastIndex(xs, k)
  {
    assert (xs + [x])[..|xs|] == xs;
  }

  lemma HitsAppend(xs: seq<Id>, x: Id, keys: set<Id>)
    ensures Hits(xs + [x], keys) == Hits(xs, keys) + (if x in keys then [|xs|] else [])
  {
    assert (xs + [x])[..|xs|] == xs;
  }

  /**
    What the `bulk_set_status` loop has built after processing the ids in `done`: the task
    map and the list of updated tasks. The i-th processed id uses clock reading i.
   */
  function BulkRun(tasks: map<Id, Task>, done: seq<Id>, status: Status, clock: seq<Time>): (r: (map<Id, Task>, seq<Task>))
    requires |done| <= |clock|
    ensures r.0.Keys == tasks.Keys
    decreases |done|
  {
    if done == [] then (tasks, [])
    else
      var n := |done| - 1;
      var (m, out) := BulkRun(tasks, done[..n], status, clock);
      var x := done[n];
      if x in m then
        var t := WithStatus(m[x], status, clock[n]);
        (m[x := t], out + [t])
      else (m, out)
  }

  /** After processing `done`, every task it lists carries the status and its latest reading. */
  ghost predicate StampedUpTo(tasks: map<Id, Task>, m: map<Id, Task>, done: seq<Id>, status: Status, clock: seq<Time>)
    requires |done| <= |clock|
  {
    && m.Keys == tasks.Keys
    && (forall k :: k in tasks && k !in done ==> m[k] == tasks[k])
    && (forall k :: k in tasks && k in done ==> m[k] == WithStatus(tasks[k], status, clock[LastIndex(done, k)]))
  }

  /** After processing `done`, the output holds one updated task per hit, in order. */
  ghost predicate ReportedUpTo(tasks: map<Id, Task>, updated: seq<Task>, done: seq<Id>, status: Status, clock: seq<Time>)
    requires |done| <= |clock|
  {
    var hits := Hits(done, tasks.Keys);
    && |updated| == |hits|
    && forall j :: 0 <= j < |hits| ==> updated[j] == WithStatus(tasks[done[hits[j]]], status, clock[hits[j]])
  }

  lemma {:induction false} BulkRunStamped(tasks: map<Id, Task>, done: seq<Id>, status: Status, clock: seq<Time>)
    requires |done| <= |clock|
    ensures StampedUpTo(tasks, BulkRun(tasks, done, status, clock).0, done, status, clock)
    decreases |done|
  {
    if done != [] {
      var n := |done| - 1;
      var front := done[..n];
      var x := done[n];
      assert done == front + [x];
      BulkRunStamped(tasks, front, status, clock);
      var m := BulkRun(tasks, done, status, clock).0;
      forall k | k in tasks && k in done
        ensures m[k] == WithStatus(tasks[k], status, clock[LastIndex(done, k)])
      {
        LastIndexAppend(front, x, k);
      }
    }
  }

  /** Appending an id does not move the earlier hits. */
  lemma HitsOfPrefix(front: seq<Id>, x: Id, keys: set<Id>)
    ensures forall j :: 0 <= j < |Hits(front, keys)| ==> (front + [x])[Hits(front, keys)[j]] == front[Hits(front, keys)[j]]
  {
  }

  /** Restamping a task that may already have been restamped is restamping the original. */
  lemma RestampedTask(tasks: map<Id, Task>, done: seq<Id>, x: Id, status: Status, clock: seq<Time>, at: Time)
    requires |done| <= |clock|
    requires x in tasks
    ensures WithStatus(BulkRun(tasks, done, status, clock).0[x], status, at) == WithStatus(tasks[x], status, at)
  {
    BulkRunStamped(tasks, done, status, clock);
  }

  lemma {:induction false} BulkRunReported(tasks: map<Id, Task>, done: seq<Id>, status: Status, clock: seq<Time>)
    requires |done| <= |clock|
    ensures ReportedUpTo(tasks, BulkRun(tasks, done, status, clock).1, done, status, clock)
    decreases |done|
  {
    if done != [] {
      var n := |done| - 1;
      var front := done[..n];
      var x := done[n];
      assert done == front + [x];
      BulkRunReported(tasks, front, status, clock);
      HitsAppend(front, x, tasks.Keys);
      HitsOfPrefix(front, x, tasks.Keys);
      if x in tasks {
        RestampedTask(tasks, front, x, status, clock, clock[n]);
      }
    }
  }

  /**
    `bulk_set_status`: every listed id that names a task gets the status and a fresh
    `updated_at` (one clock reading per listed id); unknown ids are skipped. A task listed
    twice is updated twice and keeps the later reading.
   */
  method BulkSetStatus(s: Store, ids: seq<Id>, status: Status, clock: seq<Time>)
    returns (s': Store, updated: seq<Task>)
    requires Valid(s)
    requires |clock| == |ids|
    ensures Valid(s')
    ensures s'.tasks.entries.Keys == s.tasks.entries.Keys && s'.tasks.order == s.tasks.order
    ensures s'.reminders == s.reminders && s'.notifications == s.notifications
    ensures forall k :: k in s.tasks.entries && k !in ids ==> s'.tasks.entries[k] == s.tasks.entries[k]
    ensures forall k :: k in s.tasks.entries && k in ids ==>
      s'.tasks.entries[k] == WithStatus(s.tasks.entries[k], status, clock[LastIndex(ids, k)])
    ensures var hits := Hits(ids, s.tasks.entries.Keys);
      && |updated| == |hits|
      && forall j :: 0 <= j < |hits| ==>
           updated[j] == WithStatus(s.tasks.entries[ids[hits[j]]], status, clock[hits[j]])
  {
    s' := s;
    updated := [];
    var i := 0;
    while i < |ids|
      invariant 0 <= i <= |ids|
      invariant Valid(s') && s'.tasks.order == s.tasks.order
      invariant s'.reminders == s.reminders && s'.notifications == s.notifications
      invariant (s'.tasks.entries, updated) == BulkRun(s.tasks.entries, ids[..i], status, clock)
    {
      var x := ids[i];
      assert ids[..i + 1][..i] == ids[..i];
      if x in s'.tasks.entries {
        var t := WithStatus(s'.tasks.entries[x], status, clock[i]);
        s' := Overwrite(s', t);
        updated := updated + [t];
      }
      i := i + 1;
    }
    assert ids[..i] == ids;
    BulkRunStamped(s.tasks.entries, ids, status, clock);
    BulkRunReported(s.tasks.entries, ids, status, clock);
  }

  /** `bulk_delete`: every listed id that names a task is removed; nothing else changes and it never fails. */
  function BulkDelete(s: Store, ids: seq<Id>): (s': Store)
    requires Valid(s)
    ensures Valid(s')
    ensures s'.tasks.entries == s.tasks.entries - Seqs.Elements(ids)
    ensures s'.tasks.order == Seqs.Keep(s.tasks.order, D.Unlisted(ids))
    ensures s'.reminders == s.reminders && s'.notifications == s.notifications
  {
    D.DiscardAllRemovesListed(s.tasks, ids);
    s.(tasks := D.DiscardAll(s.tasks, ids))
  }
}

=== FILE: common.dfy ===
/** Scalar stand-ins and the error-carrying wrappers shared by every module. */
module Common {

  /** A UUID. Only equality matters, so any type with equality would do. */
  type Id = nat

  /** A reading of the wall clock (`datetime`). */
  type Time = int

  /** A calendar day (`date`). */
  type Date = int

  datatype Option<+T> = None | Some(value: T)

  /** The `HTTPException(404)` raised by the store, one constructor per `detail` text. */
  datatype Error = TaskNotFound | ReminderNotFound | NotificationNotFound

  datatype Result<+T> = Ok(value: T) | Err(error: Error)
}

=== FILE: listing.dfy ===
/**
  `GET /tasks`: the stored tasks in insertion order, narrowed by optional criteria
  (`_apply_filters`) and then cut to one page.
 */
module Listing {
  import opened Common
  import opened Model
  import Seqs
  import Text
  import Paging
  import D = OrderedDict
  import opened TaskStore

  /** The optional query parameters of the task listing; `None` means "not given". */
  datatype Query = Query(
    status: Option<Status>,
    priority: Option<Priority>,
    assigneeId: Option<Id>,
    search: Option<string>)

  const NoFilter: Query := Query(None, None, None, None)

  const MaxLimit: nat := 100

  /** A missing description is searched as the empty string. */
  function DescriptionText(t: Task): string {
    match t.base.description
    case None => ""
    case Some(d) => d
  }

  /** The search test for a needle that is already lower-cased. */
  predicate SearchHit(t: Task, needle: string) {
    || Text.Contains(Text.Lower(t.base.title), needle)
    || Text.Find(Text.Lower(DescriptionText(t)), needle) >= 0
  }

  predicate StatusOk(t: Task, q: Query) {
    q.status.Some? ==> t.base.status == q.status.value
  }

  predicate PriorityOk(t: Task, q: Query) {
    q.priority.Some? ==> t.base.priority == q.priority.value
  }

  predicate AssigneeOk(t: Task, q: Query) {
    q.assigneeId.Some? ==> t.base.assigneeId == q.assigneeId
  }

  /** Both a missing and an empty search string impose nothing (`if search:`). */
  predicate Searching(q: Query) {
    q.search.Some? && q.search.value != ""
  }

  predicate SearchOk(t: Task, q: Query) {
    Searching(q) ==> SearchHit(t, Text.Lower(q.search.value))
  }

  /** The criteria a task must meet, one per parameter; absent ones impose nothing. */
  predicate Matches(t: Task, q: Query) {
    StatusOk(t, q) && PriorityOk(t, q) && AssigneeOk(t, q) && SearchOk(t, q)
  }

  function StatusIs(st: Status): Task -> bool {
    (t: Task) => t.base.status == st
  }

  function PriorityIs(pr: Priority): Task -> bool {
    (t: Task) => t.base.priority == pr
  }

  function AssigneeIs(a: Option<Id>): Task -> bool {
    (t: Task) => t.base.assigneeId == a
  }

  function SearchFor(needle: string): Task -> bool {
    (t: Task) => SearchHit(t, needle)
  }

  /** `_apply_filters`: one list comprehension per criterion that is given, in this order. */
  function ApplyFilters(tasks: seq<Task>, q: Query): (r: seq<Task>)
    ensures |r| <= |tasks|
    ensures forall t :: t in r <==> t in tasks && Matches(t, q)
  {
    var r1 := if q.status.Some? then Seqs.Keep(tasks, StatusIs(q.status.value)) else tasks;
    var r2 := if q.priority.Some? then Seqs.Keep(r1, PriorityIs(q.priority.value)) else r1;
    var r3 := if q.assigneeId.Some? then Seqs.Keep(r2, AssigneeIs(q.assigneeId)) else r2;
    if Searching(q) then Seqs.Keep(r3, SearchFor(Text.Lower(q.search.value)))
    else r3
  }

  /** The tasks that meet every criterion of `q`. */
  function Matching(q: Query): Task -> bool {
    (t: Task) => Matches(t, q)
  }

  /** Each stage of `q` as a condition that an absent criterion always meets. */
  function StatusStage(q: Query): Task -> bool {
    (t: Task) => StatusOk(t, q)
  }

  function PriorityStage(q: Query): Task -> bool {
    (t: Task) => PriorityOk(t, q)
  }

  function AssigneeStage(q: Query): Task -> bool {
    (t: Task) => AssigneeOk(t, q)
  }

  function SearchStage(q: Query): Task -> bool {
    (t: Task) => SearchOk(t, q)
  }

  /** Skipping a stage whose criterion is absent is filtering by "criterion absent or met". */
  lemma StagesAreGuarded(tasks: seq<Task>, q: Query)
    ensures ApplyFilters(tasks, q) ==
      Seqs.Keep(Seqs.Keep(Seqs.Keep(Seqs.Keep(tasks, StatusStage(q)), PriorityStage(q)), AssigneeStage(q)), SearchStage(q))
  {
    var r1 := Seqs.Keep(tasks, StatusStage(q));
    var r2 := Seqs.Keep(r1, PriorityStage(q));
    var r3 := Seqs.Keep(r2, AssigneeStage(q));
    StageAgrees(tasks, q.status.Some?, StatusStage(q), if q.status.Some? then StatusIs(q.status.value) else StatusStage(q));
    StageAgrees(r1, q.priority.Some?, PriorityStage(q), if q.priority.Some? then PriorityIs(q.priority.value) else PriorityStage(q));
    StageAgrees(r2, q.assigneeId.Some?, AssigneeStage(q), AssigneeIs(q.assigneeId));
    StageAgrees(r3, Searching(q), SearchStage(q), if Searching(q) then SearchFor(Text.Lower(q.search.value)) else SearchStage(q));
  }

  /** Filtering in stages is one pass that keeps exactly the matching tasks, in their original order. */
  lemma ApplyFiltersIsOnePass(tasks: seq<Task>, q: Query)
    ensures ApplyFilters(tasks, q) == Seqs.Keep(tasks, Matching(q))
  {
    StagesAreGuarded(tasks, q);
    Seqs.KeepFuse4(tasks, StatusStage(q), PriorityStage(q), AssigneeStage(q), SearchStage(q), Matching(q));
  }

  /** A stage that is skipped when its criterion is absent equals filtering by "criterion absent or met". */
  lemma StageAgrees(xs: seq<Task>, given: bool, guarded: Task -> bool, test: Task -> bool)
    requires forall t :: guarded(t) == (given ==> test(t))
    ensures Seqs.Keep(xs, guarded) == if given then Seqs.Keep(xs, test) else xs
  {
    if given {
      Seqs.KeepSame(xs, guarded, test);
    } else {
      Seqs.KeepAll(xs, guarded);
    }
  }

  /** With no criteria every task passes. */
  lemma NoFilterKeepsAll(tasks: seq<Task>)
    ensures ApplyFilters(tasks, NoFilter) == tasks
  {
  }

  /** An empty search string imposes nothing. */
  lemma EmptySearchImposesNothing(tasks: seq<Task>, q: Query)
    ensures ApplyFilters(tasks, q.(search := Some(""))) == ApplyFilters(tasks, q.(search := None))
  {
  }

  /** `list_tasks`: the filtered tasks from position `offset`, at most `limit` of them. */
  function ListTasks(s: Store, q: Query, limit: nat, offset: nat): (r: seq<Task>)
    requires Valid(s)
    requires 1 <= limit <= MaxLimit
    ensures var all := ApplyFilters(D.Values(s.tasks), q);
      && |r| == Paging.Min(limit, Paging.Max(0, |all| - offset))
      && forall i :: 0 <= i < |r| ==> r[i] == all[offset + i]
    ensures |r| <= limit
    ensures forall t :: t in r ==> t in s.tasks.entries.Values && Matches(t, q)
  {
    var all := ApplyFilters(D.Values(s.tasks), q);
    Paging.Page(all, offset, limit)
  }

  /** The search ignores the case of the search string. */
  lemma SearchIgnoresCase(tasks: seq<Task>, q: Query, search: string)
    ensures ApplyFilters(tasks, q.(search := Some(Text.Lower(search)))) == ApplyFilters(tasks, q.(search := Some(search)))
  {
    Text.LowerIdempotent(search);
    var q1 := q.(search := Some(Text.Lower(search)));
    var q2 := q.(search := Some(search));
    ApplyFiltersIsOnePass(tasks, q1);
    ApplyFiltersIsOnePass(tasks, q2);
    Seqs.KeepSame(tasks, Matching(q1), Matching(q2));
  }

  /** Unfiltered, from offset 0 and with a limit covering the store, the listing is every task in insertion order. */
  lemma ListEverything(s: Store, limit: nat)
    requires Valid(s) && 1 <= limit <= MaxLimit && limit >= |s.tasks.entries|
    ensures ListTasks(s, NoFilter, limit, 0) == D.Values(s.tasks)
  {
    NoFilterKeepsAll(D.Values(s.tasks));
    Paging.PageWhole(D.Values(s.tasks), limit);
  }

  /**
    A task created from a title alone is listed under the not-started status and the medium
    priority filters, and under no assignee filter.
   */
  lemma CreatedWithDefaultsIsListed(s: Store, title: string, id: Id, creator: Id, now: Time, who: Id)
    requires Valid(s) && ValidTitle(title) && id !in s.tasks.entries
    ensures var (s', t) := CreateTask(s, NewBase(title), id, creator, now);
      && t in ApplyFilters(D.Values(s'.tasks), Query(Some(NotStarted), Some(Medium), None, None))
      && t !in ApplyFilters(D.Values(s'.tasks), NoFilter.(assigneeId := Some(who)))
  {
    var (s', t) := CreateTask(s, NewBase(title), id, creator, now);
    assert s'.tasks.entries[id] == t;
    assert t in D.Values(s'.tasks);
    assert Matches(t, Query(Some(NotStarted), Some(Medium), None, None));
    assert !Matches(t, NoFilter.(assigneeId := Some(who)));
  }

  /** Walking the listing page by page sees the filtered tasks in order, none skipped or repeated. */
  lemma ConsecutivePages(s: Store, q: Query, limit: nat, offset: nat)
    requires Valid(s) && 1 <= limit && 2 * limit <= MaxLimit
    ensures ListTasks(s, q, limit, offset) + ListTasks(s, q, limit, offset + limit) == ListTasks(s, q, 2 * limit, offset)
  {
    Paging.PageSplit(ApplyFilters(D.Values(s.tasks), q), offset, limit, limit);
  }
}

=== FILE: model.dfy ===
/**
  The records of the task manager: tasks with their editable part, the partial
  update a PATCH carries, reminders and notifications, with the field bounds the
  request schemas enforce.
 */
module Model {
  import opened Common

  datatype Priority = Low | Medium | High | Critical

  datatype Status = NotStarted | InProgress | Completed | Blocked

  datatype NotificationType = TaskAssigned | TaskDueSoon | TaskOverdue | TaskUpdated

  const TitleMinLength: nat := 1
  const TitleMaxLength: nat := 200
  const ProgressMin: int := 0
  const ProgressMax: int := 100

  /** The editable fields of a task; also the body of a create or full-replace request. */
  datatype TaskBase = TaskBase(
    title: string,
    description: Option<string>,
    priority: Priority,
    status: Status,
    progress: int,
    dueDate: Option<Date>,
    assigneeId: Option<Id>)

  predicate ValidTitle(title: string) {
    TitleMinLength <= |title| <= TitleMaxLength
  }

  predicate ValidProgress(progress: int) {
    ProgressMin <= progress <= ProgressMax
  }

  predicate ValidBase(b: TaskBase) {
    ValidTitle(b.title) && ValidProgress(b.progress)
  }

  /** A create request that gives only a title gets these defaults. */
  function NewBase(title: string): (b: TaskBase)
    requires ValidTitle(title)
    ensures ValidBase(b)
    ensures b.title == title && b.description == None
    ensures b.priority == Medium && b.status == NotStarted && b.progress == 0
    ensures b.dueDate == None && b.assigneeId == None
  {
    TaskBase(title, None, Medium, NotStarted, 0, None, None)
  }

  /** A stored task: its editable fields plus the fields the server sets. */
  datatype Task = Task(
    id: Id,
    base: TaskBase,
    creatorId: Option<Id>,
    teamId: Option<Id>,
    createdAt: Time,
    updatedAt: Time)

  /** A field of a partial update: left out of the request, or given a value. */
  datatype Field<T> = Absent | Given(value: T)

  function Pick<T>(f: Field<T>, current: T): T {
    match f
    case Absent => current
    case Given(v) => v
  }

  /**
    A PATCH body. Description, due date and assignee may be explicitly set to null,
    so their given value is an Option; the other fields cannot be nulled.
   */
  datatype TaskPatch = TaskPatch(
    title: Field<string>,
    description: Field<Option<string>>,
    priority: Field<Priority>,
    status: Field<Status>,
    progress: Field<int>,
    dueDate: Field<Option<Date>>,
    assigneeId: Field<Option<Id>>)

  predicate ValidPatch(p: TaskPatch) {
    && (p.title.Given? ==> ValidTitle(p.title.value))
    && (p.progress.Given? ==> ValidProgress(p.progress.value))
  }

  /** Overwrite exactly the fields the patch gives; keep every other one. */
  function ApplyPatch(b: TaskBase, p: TaskPatch): (r: TaskBase)
    ensures p.title.Absent? ==> r.title == b.title
    ensures p.title.Given? ==> r.title == p.title.value
    ensures p.description.Absent? ==> r.description == b.description
    ensures p.description.Given? ==> r.description == p.description.value
    ensures p.priority.Absent? ==> r.priority == b.priority
    ensures p.priority.Given? ==> r.priority == p.priority.value
    ensures p.status.Absent? ==> r.status == b.status
    ensures p.status.Given? ==> r.status == p.status.value
    ensures p.progress.Absent? ==> r.progress == b.progress
    ensures p.progress.Given? ==> r.progress == p.progress.value
    ensures p.dueDate.Absent? ==> r.dueDate == b.dueDate
    ensures p.dueDate.Given? ==> r.dueDate == p.dueDate.value
    ensures p.assigneeId.Absent? ==> r.assigneeId == b.assigneeId
    ensures p.assigneeId.Given? ==> r.assigneeId == p.assigneeId.value
    ensures ValidBase(b) && ValidPatch(p) ==> ValidBase(r)
  {
    TaskBase(
      Pick(p.title, b.title),
      Pick(p.description, b.description),
      Pick(p.priority, b.priority),
      Pick(p.status, b.status),
      Pick(p.progress, b.progress),
      Pick(p.dueDate, b.dueDate),
      Pick(p.assigneeId, b.assigneeId))
  }

  /** The patch that gives no field. */
  const NoChange: TaskPatch := TaskPatch(Absent, Absent, Absent, Absent, Absent, Absent, Absent)

  /** The patch that gives every field the value it has in `b`. */
  function FullPatch(b: TaskBase): TaskPatch {
    TaskPatch(Given(b.title), Given(b.description), Given(b.priority), Given(b.status),
              Given(b.progress), Given(b.dueDate), Given(b.assigneeId))
  }

  function StatusPatch(s: Status): TaskPatch {
    NoChange.(status := Given(s))
  }

  function ProgressPatch(p: int): TaskPatch {
    NoChange.(progress := Given(p))
  }

  function AssigneePatch(a: Option<Id>): TaskPatch {
    NoChange.(assigneeId := Given(a))
  }

  /** An empty patch changes nothing. */
  lemma NoChangeIsIdentity(b: TaskBase)
    ensures ApplyPatch(b, NoChange) == b
  {
  }

  /** A patch that gives every field replaces the whole editable part, whatever it was. */
  lemma FullPatchReplaces(b: TaskBase, c: TaskBase)
    ensures ApplyPatch(b, FullPatch(c)) == c
  {
  }

  /** Applying the same patch twice is applying it once. */
  lemma PatchIdempotent(b: TaskBase, p: TaskPatch)
    ensures ApplyPatch(ApplyPatch(b, p), p) == ApplyPatch(b, p)
  {
  }

  /** A task with a new status and a fresh `updated_at`; nothing else moves. */
  function WithStatus(t: Task, s: Status, now: Time): (r: Task)
    ensures r.base == ApplyPatch(t.base, StatusPatch(s))
    ensures r.id == t.id && r.creatorId == t.creatorId && r.teamId == t.teamId
    ensures r.createdAt == t.createdAt && r.updatedAt == now
  {
    t.(base := t.base.(status := s), updatedAt := now)
  }

  datatype Reminder = Reminder(id: Id, taskId: Id, remindAt: Time, createdAt: Time)

  datatype Notification = Notification(
    id: Id,
    kind: NotificationType,
    taskId: Option<Id>,
    message: string,
    isRead: bool,
    createdAt: Time)
}

=== FILE: notifications.dfy ===
/**
  Notifications: listed with an optional read-flag filter and pagination, marked read one
  at a time or all together, and deleted. Nothing in this version of the service creates
  them, so the collection only changes through these operations.
 */
module Notifications {
  import opened Common
  import opened Model
  import Seqs
  import Paging
  import D = OrderedDict
  import opened TaskStore

  const MaxLimit: nat := 200

  function ReadFlagIs(isRead: bool): Notification -> bool {
    (n: Notification) => n.isRead == isRead
  }

  /** The notifications other than `nid`. */
  function Other(nid: Id): Notification -> bool {
    (n: Notification) => n.id != nid
  }

  /** The keys of the stored notifications whose read flag is `isRead`, when given. */
  function KeysFlagged(s: Store, isRead: Option<bool>): Id -> bool {
    k => k in s.notifications.entries && (isRead.Some? ==> s.notifications.entries[k].isRead == isRead.value)
  }

  /**
    `list_notifications` before pagination: the stored notifications, narrowed by the flag when
    given, each once and in key-insertion order.
   */
  function Filtered(s: Store, isRead: Option<bool>): (r: seq<Notification>)
    requires Valid(s)
    ensures forall n :: n in r <==> n in s.notifications.entries.Values && (isRead.Some? ==> n.isRead == isRead.value)
    ensures Seqs.Distinct(r)
    ensures r == D.ValuesAt(s.notifications.entries, Seqs.Keep(s.notifications.order, KeysFlagged(s, isRead)))
  {
    var items := D.Values(s.notifications);
    FlagFilterInKeyOrder(s, isRead);
    if isRead.Some? then Seqs.Keep(items, ReadFlagIs(isRead.value)) else items
  }

  /** Both branches of `Filtered` list the flagged notifications once each, in key order. */
  lemma FlagFilterInKeyOrder(s: Store, isRead: Option<bool>)
    requires Valid(s)
    ensures var items := D.Values(s.notifications);
      var r := if isRead.Some? then Seqs.Keep(items, ReadFlagIs(isRead.value)) else items;
      && Seqs.Distinct(r)
      && r == D.ValuesAt(s.notifications.entries, Seqs.Keep(s.notifications.order, KeysFlagged(s, isRead)))
  {
    D.KeyedValuesDistinct(s.notifications, (n: Notification) => n.id);
    var items := D.Values(s.notifications);
    if isRead.Some? {
      Seqs.KeepDistinct(items, ReadFlagIs(isRead.value));
      D.KeepValues(s.notifications, ReadFlagIs(isRead.value), KeysFlagged(s, isRead));
    } else {
      Seqs.KeepAll(s.notifications.order, KeysFlagged(s, isRead));
      assert items == D.ValuesAt(s.notifications.entries, s.notifications.order);
    }
  }

  /** `list_notifications`: one page of the filtered notifications. */
  function ListNotifications(s: Store, isRead: Option<bool>, limit: nat, offset: nat): (r: seq<Notification>)
    requires Valid(s)
    requires 1 <= limit <= MaxLimit
    ensures var all := Filtered(s, isRead);
      && |r| == Paging.Min(limit, Paging.Max(0, |all| - offset))
      && forall i :: 0 <= i < |r| ==> r[i] == all[offset + i]
    ensures forall n :: n in r ==> n in s.notifications.entries.Values && (isRead.Some? ==> n.isRead == isRead.value)
  {
    Paging.Page(Filtered(s, isRead), offset, limit)
  }

  /** `mark_notification_read`. */
  function MarkRead(s: Store, nid: Id): (r: Result<(Store, Notification)>)
    requires Valid(s)
    ensures r.Err? <==> nid !in s.notifications.entries
    ensures r.Err? ==> r.error == NotificationNotFound
    ensures r.Ok? ==> var (s', n) := r.value;
      && Valid(s')
      && n.isRead
      && n == s.notifications.entries[nid].(isRead := true)
      && s'.notifications.entries == s.notifications.entries[nid := n]
      && s'.notifications.order == s.notifications.order
      && s'.tasks == s.tasks && s'.reminders == s.reminders
  {
    if nid !in s.notifications.entries then Err(NotificationNotFound)
    else
      var n := s.notifications.entries[nid].(isRead := true);
      Ok((s.(notifications := D.Put(s.notifications, nid, n)), n))
  }

  /** Marking a notification read a second time succeeds and changes nothing more. */
  lemma MarkReadIdempotent(s: Store, nid: Id)
    requires Valid(s) && nid in s.notifications.entries
    ensures var (s', n) := MarkRead(s, nid).value; MarkRead(s', nid) == Ok((s', n))
  {
    var (s', n) := MarkRead(s, nid).value;
    assert s'.notifications.entries[nid := n] == s'.notifications.entries;
  }

  /** `mark_all_notifications_read`: every notification is read; keys and their order stay. */
  function MarkAllRead(s: Store): (s': Store)
    requires Valid(s)
    ensures Valid(s')
    ensures s'.notifications.entries.Keys == s.notifications.entries.Keys
    ensures s'.notifications.order == s.notifications.order
    ensures forall k :: k in s.notifications.entries ==>
      s'.notifications.entries[k] == s.notifications.entries[k].(isRead := true)
    ensures s'.tasks == s.tasks && s'.reminders == s.reminders
  {
    var marked := map k | k in s.notifications.entries :: s.notifications.entries[k].(isRead := true);
    s.(notifications := s.notifications.(entries := marked))
  }

  /** After `mark_all_read`, every page of the unread filter is empty. */
  lemma {:induction false} MarkAllReadLeavesNoneUnread(s: Store, limit: nat, offset: nat)
    requires Valid(s) && 1 <= limit <= MaxLimit
    ensures ListNotifications(MarkAllRead(s), Some(false), limit, offset) == []
  {
    var items := D.Values(MarkAllRead(s).notifications);
    Seqs.KeepNone(items, ReadFlagIs(false));
  }

  /** After `mark_all_read`, the read filter lists every notification. */
  lemma {:induction false} MarkAllReadListsAllAsRead(s: Store)
    requires Valid(s)
    ensures Filtered(MarkAllRead(s), Some(true)) == D.Values(MarkAllRead(s).notifications)
  {
    var items := D.Values(MarkAllRead(s).notifications);
    Seqs.KeepAll(items, ReadFlagIs(true));
  }

  /** Marking all read twice is marking all read once. */
  lemma MarkAllReadIdempotent(s: Store)
    requires Valid(s)
    ensures MarkAllRead(MarkAllRead(s)) == MarkAllRead(s)
  {
  }

  /** `delete_notification`. */
  function DeleteNotification(s: Store, nid: Id): (r: Result<Store>)
    requires Valid(s)
    ensures r.Err? <==> nid !in s.notifications.entries
    ensures r.Err? ==> r.error == NotificationNotFound
    ensures r.Ok? ==>
      && Valid(r.value)
      && r.value.notifications.entries == s.notifications.entries - {nid}
      && r.value.notifications.order == Seqs.Keep(s.notifications.order, D.Except(nid))
      && r.value.tasks == s.tasks && r.value.reminders == s.reminders
  {
    if nid !in s.notifications.entries then Err(NotificationNotFound)
    else Ok(s.(notifications := D.Remove(s.notifications, nid)))
  }

  /** Deleting a notification drops it from every listing and keeps the rest in order. */
  lemma {:induction false} DeleteDropsFromListing(s: Store, nid: Id, isRead: Option<bool>)
    requires Valid(s) && nid in s.notifications.entries
    ensures Filtered(DeleteNotification(s, nid).value, isRead) == Seqs.Keep(Filtered(s, isRead), Other(nid))
  {
    var vs := D.Values(s.notifications);
    D.ValuesAfterRemove(s.notifications, nid, Other(nid));
    if isRead.Some? {
      var both := (n: Notification) => n.id != nid && n.isRead == isRead.value;
      Seqs.KeepFuse(vs, Other(nid), ReadFlagIs(isRead.value), both);
      Seqs.KeepFuse(vs, ReadFlagIs(isRead.value), Other(nid), both);
    }
  }
}

=== FILE: ordered_dict.dfy ===
/**
  A Python `dict` keyed by ids: a finite map plus the order in which its keys were
  first inserted. Assigning to a present key keeps its position; a new key goes last;
  deleting a key drops it from the order. `list(d.values())` follows that order.
 */
module OrderedDict {
  import opened Common
  import Seqs

  datatype Dict<V> = Dict(entries: map<Id, V>, order: seq<Id>)

  /** The order lists every key exactly once. */
  ghost predicate Valid<V>(d: Dict<V>) {
    && Seqs.Distinct(d.order)
    && (forall k :: k in d.entries <==> k in d.order)
  }

  /** The keys other than `k`. */
  function Except(k: Id): Id -> bool {
    x => x != k
  }

  /** The keys not listed in `ks`. */
  function Unlisted(ks: seq<Id>): Id -> bool {
    x => x !in ks
  }

  /** The keys in `keys`. */
  function Among(keys: set<Id>): Id -> bool {
    x => x in keys
  }

  function Empty<V>(): (d: Dict<V>)
    ensures Valid(d)
    ensures |d.entries| == 0
  {
    Dict(map[], [])
  }

  /** `d[k] = v`. */
  function Put<V>(d: Dict<V>, k: Id, v: V): (r: Dict<V>)
    requires Valid(d)
    ensures Valid(r)
    ensures r.entries == d.entries[k := v]
    ensures k in d.entries ==> r.order == d.order
    ensures k !in d.entries ==> r.order == d.order + [k]
  {
    if k in d.entries then Dict(d.entries[k := v], d.order)
    else
      var o := d.order + [k];
      assert Seqs.Distinct(o) by {
        forall i, j | 0 <= i < j < |o| ensures o[i] != o[j] {
          if j == |d.order| {
            assert o[i] == d.order[i];
            assert o[i] in d.order;
          }
        }
      }
      Dict(d.entries[k := v], o)
  }

  /** `del d[k]`, for a key that is present. */
  function Remove<V>(d: Dict<V>, k: Id): (r: Dict<V>)
    requires Valid(d)
    requires k in d.entries
    ensures Valid(r)
    ensures r.entries == d.entries - {k}
    ensures r.order == Seqs.Keep(d.order, Except(k))
  {
    var o := Seqs.Keep(d.order, Except(k));
    Seqs.KeepDistinct(d.order, Except(k));
    Dict(d.entries - {k}, o)
  }

  /** `d.pop(k, None)`: deletes the key when present and never fails. */
  function Discard<V>(d: Dict<V>, k: Id): (r: Dict<V>)
    requires Valid(d)
    ensures Valid(r)
    ensures r.entries == d.entries - {k}
    ensures r.order == Seqs.Keep(d.order, Except(k))
  {
    if k in d.entries then Remove(d, k)
    else
      Seqs.KeepAll(d.order, Except(k));
      assert d.entries - {k} == d.entries;
      d
  }

  /** `for k in ks: d.pop(k, None)`. */
  function DiscardAll<V>(d: Dict<V>, ks: seq<Id>): (r: Dict<V>)
    requires Valid(d)
    ensures Valid(r)
    decreases |ks|
  {
    if ks == [] then d else DiscardAll(Discard(d, ks[0]), ks[1..])
  }

  lemma MinusTwice<V>(m: map<Id, V>, k: Id, ks: set<Id>)
    ensures (m - {k}) - ks == m - ({k} + ks)
  {
  }

  /** Unlisted by `ks` means other than its head and unlisted by its tail. */
  lemma UnlistedSplit(ks: seq<Id>)
    requires ks != []
    ensures forall x :: Unlisted(ks)(x) == (Except(ks[0])(x) && Unlisted(ks[1..])(x))
  {
    assert ks == [ks[0]] + ks[1..];
  }

  /** Popping every listed key removes exactly the listed keys from the map. */
  lemma {:induction false} DiscardAllEntries<V>(d: Dict<V>, ks: seq<Id>)
    requires Valid(d)
    ensures DiscardAll(d, ks).entries == d.entries - Seqs.Elements(ks)
    decreases |ks|
  {
    if ks != [] {
      var rest := ks[1..];
      var d1 := Discard(d, ks[0]);
      assert DiscardAll(d, ks) == DiscardAll(d1, rest);
      DiscardAllEntries(d1, rest);
      Seqs.ElementsCons(ks);
      MinusTwice(d.entries, ks[0], Seqs.Elements(rest));
    }
  }

  /** Popping every listed key keeps the other keys in their order. */
  lemma {:induction false} DiscardAllOrder<V>(d: Dict<V>, ks: seq<Id>)
    requires Valid(d)
    ensures DiscardAll(d, ks).order == Seqs.Keep(d.order, Unlisted(ks))
    decreases |ks|
  {
    if ks == [] {
      Seqs.KeepAll(d.order, Unlisted(ks));
    } else {
      var rest := ks[1..];
      var d1 := Discard(d, ks[0]);
      assert DiscardAll(d, ks) == DiscardAll(d1, rest);
      DiscardAllOrder(d1, rest);
      UnlistedSplit(ks);
      Seqs.KeepFuse(d.order, Except(ks[0]), Unlisted(rest), Unlisted(ks));
    }
  }

  /** Popping every listed key removes exactly the listed keys and keeps the others in order. */
  lemma DiscardAllRemovesListed<V>(d: Dict<V>, ks: seq<Id>)
    requires Valid(d)
    ensures DiscardAll(d, ks).entries == d.entries - Seqs.Elements(ks)
    ensures DiscardAll(d, ks).order == Seqs.Keep(d.order, Unlisted(ks))
  {
    DiscardAllEntries(d, ks);
    DiscardAllOrder(d, ks);
  }

  /** `list(d.values())`: one value per key, in key order, and exactly the stored values. */
  function Values<V(==,!new)>(d: Dict<V>): (r: seq<V>)
    requires Valid(d)
    ensures |r| == |d.order| == |d.entries|
    ensures forall v :: v in r <==> v in d.entries.Values
    ensures forall i :: 0 <= i < |r| ==> r[i] == d.entries[d.order[i]]
  {
    var r := seq(|d.order|, i requires 0 <= i < |d.order| => d.entries[d.order[i]]);
    forall v | v in d.entries.Values ensures v in r {
      var k :| k in d.entries && d.entries[k] == v;
      var i :| 0 <= i < |d.order| && d.order[i] == k;
      assert r[i] == v;
    }
    Seqs.DistinctCard(d.order);
    assert d.entries.Keys == Seqs.Elements(d.order);
    assert |d.entries| == |d.entries.Keys|;
    r
  }

  /** The values stored under the keys `ks`, in that order. */
  ghost function ValuesAt<V>(e: map<Id, V>, ks: seq<Id>): (r: seq<V>)
    requires forall k :: k in ks ==> k in e
    ensures |r| == |ks|
    ensures forall i :: 0 <= i < |ks| ==> r[i] == e[ks[i]]
  {
    if ks == [] then [] else [e[ks[0]]] + ValuesAt(e, ks[1..])
  }

  /**
    When `p` holds of a stored value exactly when `kp` holds of its key, filtering the values
    by `p` is reading the values under the keys that pass `kp`.
   */
  lemma {:induction false} KeepValuesAt<V(!new)>(e: map<Id, V>, ks: seq<Id>, p: V -> bool, kp: Id -> bool)
    requires forall j :: j in ks ==> j in e && p(e[j]) == kp(j)
    ensures Seqs.Keep(ValuesAt(e, ks), p) == ValuesAt(e, Seqs.Keep(ks, kp))
  {
    if ks != [] {
      var t := ks[1..];
      var vs := ValuesAt(e, ks);
      assert vs == [e[ks[0]]] + ValuesAt(e, t);
      assert vs[0] == e[ks[0]] && vs[1..] == ValuesAt(e, t);
      KeepValuesAt(e, t, p, kp);
      var kt := Seqs.Keep(t, kp);
      assert Seqs.Keep(ks, kp) == (if kp(ks[0]) then [ks[0]] else []) + kt;
      assert Seqs.Keep(vs, p) == (if kp(ks[0]) then [e[ks[0]]] else []) + Seqs.Keep(ValuesAt(e, t), p);
      if kp(ks[0]) {
        var ks' := [ks[0]] + kt;
        assert ks'[0] == ks[0] && ks'[1..] == kt;
        assert ValuesAt(e, ks') == [e[ks[0]]] + ValuesAt(e, kt);
      }
    }
  }

  /** The listing filtered by a test on values, read off the key order filtered by the matching test on keys. */
  lemma KeepValues<V(!new)>(d: Dict<V>, p: V -> bool, kp: Id -> bool)
    requires Valid(d)
    requires forall j :: j in d.entries ==> p(d.entries[j]) == kp(j)
    ensures Seqs.Keep(Values(d), p) == ValuesAt(d.entries, Seqs.Keep(d.order, kp))
  {
    KeepValuesAt(d.entries, d.order, p, kp);
    assert Values(d) == ValuesAt(d.entries, d.order);
  }

  /** Storing under a new key appends its value to the listing. */
  lemma ValuesAfterPut<V(!new)>(d: Dict<V>, k: Id, v: V)
    requires Valid(d) && k !in d.entries
    ensures Values(Put(d, k, v)) == Values(d) + [v]
  {
    var r := Values(Put(d, k, v));
    assert forall i :: 0 <= i < |d.order| ==> d.order[i] != k;
    assert |r| == |Values(d) + [v]|;
  }

  /**
    Deleting key `k` drops its value from the listing and keeps the others in order, for any
    `p` that tells the stored values apart by whether they sit under `k`.
   */
  lemma ValuesAfterRemove<V(!new)>(d: Dict<V>, k: Id, p: V -> bool)
    requires Valid(d) && k in d.entries
    requires forall j :: j in d.entries ==> p(d.entries[j]) == (j != k)
    ensures Values(Remove(d, k)) == Seqs.Keep(Values(d), p)
  {
    var r := Remove(d, k);
    KeepValues(d, p, Except(k));
    assert Values(r) == ValuesAt(d.entries, r.order);
  }

  /** Values that carry their own key, as `idOf` reads it, are listed without repetition. */
  lemma KeyedValuesDistinct<V(!new)>(d: Dict<V>, idOf: V -> Id)
    requires Valid(d)
    requires forall k :: k in d.entries ==> idOf(d.entries[k]) == k
    ensures Seqs.Distinct(Values(d))
  {
    var vs := Values(d);
    forall i, j | 0 <= i < j < |vs| ensures vs[i] != vs[j] {
      assert idOf(vs[i]) == d.order[i] && idOf(vs[j]) == d.order[j];
    }
  }
}

=== FILE: paging.dfy ===
/** Offset/limit pagination as Python's slice `items[offset : offset + limit]`. */
module Paging {

  function Min(a: int, b: int): int {
    if a <= b then a else b
  }

  function Max(a: int, b: int): int {
    if a >= b then a else b
  }

  /**
    `xs[offset : offset + limit]` for a non-negative offset and limit: slice bounds past
    the end are clamped to the length, so an offset beyond the end gives an empty page.
   */
  function Page<T>(xs: seq<T>, offset: nat, limit: nat): (r: seq<T>)
    ensures |r| == Min(limit, Max(0, |xs| - offset))
    ensures |r| <= limit
    ensures forall i :: 0 <= i < |r| ==> r[i] == xs[offset + i]
  {
    var lo := Min(offset, |xs|);
    var hi := Min(offset + limit, |xs|);
    xs[lo..hi]
  }

  /** Two consecutive pages together are the page that spans both. */
  lemma PageSplit<T>(xs: seq<T>, offset: nat, a: nat, b: nat)
    ensures Page(xs, offset, a) + Page(xs, offset + a, b) == Page(xs, offset, a + b)
  {
    var l := Page(xs, offset, a) + Page(xs, offset + a, b);
    var r := Page(xs, offset, a + b);
    assert |l| == |r|;
    forall i | 0 <= i < |l| ensures l[i] == r[i] {
      if i >= |Page(xs, offset, a)| {
        assert l[i] == Page(xs, offset + a, b)[i - |Page(xs, offset, a)|];
      }
    }
  }

  /** A page starting at 0 that is at least as long as the list is the whole list. */
  lemma PageWhole<T>(xs: seq<T>, limit: nat)
    requires limit >= |xs|
    ensures Page(xs, 0, limit) == xs
  {
  }
}

=== FILE: reminders.dfy ===
/**
  Reminders: child records of a task. Creating and listing check that the parent task
  exists; deleting checks only that the reminder exists and belongs to the given task.
  Deleting a task leaves its reminders in place.
 */
module Reminders {
  import opened Common
  import opened Model
  import Seqs
  import D = OrderedDict
  import opened TaskStore

  function BelongsTo(taskId: Id): Reminder -> bool {
    (r: Reminder) => r.taskId == taskId
  }

  /** `create_reminder`. */
  function CreateReminder(s: Store, taskId: Id, remindAt: Time, rid: Id, now: Time): (r: Result<(Store, Reminder)>)
    requires Valid(s)
    requires rid !in s.reminders.entries
    ensures r.Err? <==> taskId !in s.tasks.entries
    ensures r.Err? ==> r.error == TaskNotFound
    ensures r.Ok? ==> var (s', rem) := r.value;
      && Valid(s')
      && rem.id == rid && rem.taskId == taskId && rem.remindAt == remindAt && rem.createdAt == now
      && s'.reminders.entries == s.reminders.entries[rid := rem]
      && s'.reminders.order == s.reminders.order + [rid]
      && s'.tasks == s.tasks && s'.notifications == s.notifications
  {
    if taskId !in s.tasks.entries then Err(TaskNotFound)
    else
      var rem := Reminder(rid, taskId, remindAt, now);
      Ok((s.(reminders := D.Put(s.reminders, rid, rem)), rem))
  }

  /** The reminders other than `rid`. */
  function Other(rid: Id): Reminder -> bool {
    (m: Reminder) => m.id != rid
  }

  /** The keys of the stored reminders of task `taskId`. */
  function KeysOfTask(s: Store, taskId: Id): Id -> bool {
    k => k in s.reminders.entries && s.reminders.entries[k].taskId == taskId
  }

  /** `list_reminders`: the reminders of the task, each once, in the order they were created. */
  function ListReminders(s: Store, taskId: Id): (r: Result<seq<Reminder>>)
    requires Valid(s)
    ensures r.Err? <==> taskId !in s.tasks.entries
    ensures r.Err? ==> r.error == TaskNotFound
    ensures r.Ok? ==> forall m :: m in r.value <==> m in s.reminders.entries.Values && m.taskId == taskId
    ensures r.Ok? ==> Seqs.Distinct(r.value)
    ensures r.Ok? ==> r.value == D.ValuesAt(s.reminders.entries, Seqs.Keep(s.reminders.order, KeysOfTask(s, taskId)))
  {
    if taskId !in s.tasks.entries then Err(TaskNotFound)
    else
      D.KeyedValuesDistinct(s.reminders, (m: Reminder) => m.id);
      Seqs.KeepDistinct(D.Values(s.reminders), BelongsTo(taskId));
      D.KeepValues(s.reminders, BelongsTo(taskId), KeysOfTask(s, taskId));
      Ok(Seqs.Keep(D.Values(s.reminders), BelongsTo(taskId)))
  }

  /** `delete_reminder`: not found unless the reminder exists and belongs to the given task. */
  function DeleteReminder(s: Store, taskId: Id, rid: Id): (r: Result<Store>)
    requires Valid(s)
    ensures r.Err? <==> !(rid in s.reminders.entries && s.reminders.entries[rid].taskId == taskId)
    ensures r.Err? ==> r.error == ReminderNotFound
    ensures r.Ok? ==>
      && Valid(r.value)
      && r.value.reminders.entries == s.reminders.entries - {rid}
      && r.value.reminders.order == Seqs.Keep(s.reminders.order, D.Except(rid))
      && r.value.tasks == s.tasks && r.value.notifications == s.notifications
  {
    if rid !in s.reminders.entries || s.reminders.entries[rid].taskId != taskId then Err(ReminderNotFound)
    else Ok(s.(reminders := D.Remove(s.reminders, rid)))
  }

  /** A reminder just created is listed for its task. */
  lemma CreatedReminderIsListed(s: Store, taskId: Id, remindAt: Time, rid: Id, now: Time)
    requires Valid(s) && rid !in s.reminders.entries && taskId in s.tasks.entries
    ensures var (s', rem) := CreateReminder(s, taskId, remindAt, rid, now).value;
      ListReminders(s', taskId).Ok? && rem in ListReminders(s', taskId).value
  {
    var (s', rem) := CreateReminder(s, taskId, remindAt, rid, now).value;
    assert rem == s'.reminders.entries[rid];
  }

  /** Creating a reminder appends it to its task's listing; the earlier ones keep their order. */
  lemma {:induction false} CreateAppendsToListing(s: Store, taskId: Id, remindAt: Time, rid: Id, now: Time)
    requires Valid(s) && rid !in s.reminders.entries && taskId in s.tasks.entries
    ensures var (s', rem) := CreateReminder(s, taskId, remindAt, rid, now).value;
      ListReminders(s', taskId) == Ok(ListReminders(s, taskId).value + [rem])
  {
    var (s', rem) := CreateReminder(s, taskId, remindAt, rid, now).value;
    D.ValuesAfterPut(s.reminders, rid, rem);
    Seqs.KeepAppend(D.Values(s.reminders), [rem], BelongsTo(taskId));
    assert [rem][1..] == [] && BelongsTo(taskId)(rem);
    assert Seqs.Keep([rem], BelongsTo(taskId)) == [rem];
  }

  /** Deleting a reminder drops it from every listing and keeps the rest in order. */
  lemma {:induction false} DeleteDropsFromListing(s: Store, taskId: Id, rid: Id, t: Id)
    requires Valid(s) && DeleteReminder(s, taskId, rid).Ok? && t in s.tasks.entries
    ensures ListReminders(DeleteReminder(s, taskId, rid).value, t) == Ok(Seqs.Keep(ListReminders(s, t).value, Other(rid)))
  {
    var vs := D.Values(s.reminders);
    D.ValuesAfterRemove(s.reminders, rid, Other(rid));
    var both := (m: Reminder) => m.id != rid && m.taskId == t;
    Seqs.KeepFuse(vs, Other(rid), BelongsTo(t), both);
    Seqs.KeepFuse(vs, BelongsTo(t), Other(rid), both);
  }

  /**
    Deleting a task does not cascade: its reminders stay stored and can still be deleted
    one by one, but they can no longer be listed, because listing needs the task.
   */
  lemma TaskDeletionOrphansReminders(s: Store, taskId: Id, rid: Id)
    requires Valid(s) && taskId in s.tasks.entries
    requires rid in s.reminders.entries && s.reminders.entries[rid].taskId == taskId
    ensures var s' := DeleteTask(s, taskId).value;
      && rid in s'.reminders.entries
      && ListReminders(s', taskId) == Err(TaskNotFound)
      && DeleteReminder(s', taskId, rid).Ok?
  {
  }
}

=== FILE: seqs.dfy ===
/** Order-preserving filtering of sequences: Python's `[x for x in xs if p(x)]`. */
module Seqs {

  ghost predicate Distinct<T>(s: seq<T>) {
    forall i, j :: 0 <= i < j < |s| ==> s[i] != s[j]
  }

  /** The elements of `xs` that satisfy `p`, in their original order. */
  function Keep<T(!new)>(xs: seq<T>, p: T -> bool): (r: seq<T>)
    ensures |r| <= |xs|
    ensures forall x :: x in r <==> x in xs && p(x)
  {
    if xs == [] then []
    else
      assert xs == [xs[0]] + xs[1..];
      (if p(xs[0]) then [xs[0]] else []) + Keep(xs[1..], p)
  }

  /** Filtering distributes over concatenation, so it never reorders elements. */
  lemma {:induction false} KeepAppend<T(!new)>(xs: seq<T>, ys: seq<T>, p: T -> bool)
    ensures Keep(xs + ys, p) == Keep(xs, p) + Keep(ys, p)
  {
    if xs == [] {
      assert xs + ys == ys;
    } else {
      assert (xs + ys)[0] == xs[0];
      assert (xs + ys)[1..] == xs[1..] + ys;
      KeepAppend(xs[1..], ys, p);
    }
  }

  /** Two filters in a row are one filter by the conjunction. */
  lemma {:induction false} KeepFuse<T(!new)>(xs: seq<T>, p: T -> bool, q: T -> bool, pq: T -> bool)
    requires forall x :: pq(x) == (p(x) && q(x))
    ensures Keep(Keep(xs, p), q) == Keep(xs, pq)
  {
    if xs != [] {
      var t := xs[1..];
      KeepFuse(t, p, q, pq);
      assert Keep(xs, pq) == (if pq(xs[0]) then [xs[0]] else []) + Keep(t, pq);
      if p(xs[0]) {
        var kp := Keep(xs, p);
        assert kp == [xs[0]] + Keep(t, p);
        assert kp[0] == xs[0] && kp[1..] == Keep(t, p);
        assert Keep(kp, q) == (if q(xs[0]) then [xs[0]] else []) + Keep(Keep(t, p), q);
      } else {
        assert Keep(xs, p) == Keep(t, p);
      }
    }
  }

  /** Four filters in a row are one filter by the conjunction of all four. */
  lemma KeepFuse4<T(!new)>(xs: seq<T>, a: T -> bool, b: T -> bool, c: T -> bool, d: T -> bool, all: T -> bool)
    requires forall x :: all(x) == (a(x) && b(x) && c(x) && d(x))
    ensures Keep(Keep(Keep(Keep(xs, a), b), c), d) == Keep(xs, all)
  {
    var ab := x => a(x) && b(x);
    var abc := x => ab(x) && c(x);
    KeepFuse(xs, a, b, ab);
    KeepFuse(xs, ab, c, abc);
    KeepFuse(xs, abc, d, all);
  }

  /** Filters by predicates that agree everywhere give the same result. */
  lemma {:induction false} KeepSame<T(!new)>(xs: seq<T>, p: T -> bool, q: T -> bool)
    requires forall x :: p(x) == q(x)
    ensures Keep(xs, p) == Keep(xs, q)
  {
    if xs != [] {
      KeepSame(xs[1..], p, q);
    }
  }

  /** A filter that every element passes returns its input. */
  lemma {:induction false} KeepAll<T(!new)>(xs: seq<T>, p: T -> bool)
    requires forall x :: x in xs ==> p(x)
    ensures Keep(xs, p) == xs
  {
    if xs != [] {
      assert forall x :: x in xs[1..] ==> x in xs;
      KeepAll(xs[1..], p);
      assert [xs[0]] + xs[1..] == xs;
    }
  }

  /** A filter that no element passes returns nothing. */
  lemma {:induction false} KeepNone<T(!new)>(xs: seq<T>, p: T -> bool)
    requires forall x :: x in xs ==> !p(x)
    ensures Keep(xs, p) == []
  {
    if xs != [] {
      assert forall x :: x in xs[1..] ==> x in xs;
      KeepNone(xs[1..], p);
    }
  }

  /** A filter keeps a sequence free of duplicates. */
  lemma {:induction false} KeepDistinct<T(!new)>(xs: seq<T>, p: T -> bool)
    requires Distinct(xs)
    ensures Distinct(Keep(xs, p))
  {
    if xs != [] {
      assert Distinct(xs[1..]) by {
        forall i, j | 0 <= i < j < |xs[1..]| ensures xs[1..][i] != xs[1..][j] {
          assert xs[1..][i] == xs[i + 1] && xs[1..][j] == xs[j + 1];
        }
      }
      KeepDistinct(xs[1..], p);
      var rest := Keep(xs[1..], p);
      assert xs[0] !in xs[1..] by {
        forall k | 0 <= k < |xs[1..]| ensures xs[1..][k] != xs[0] {
          assert xs[1..][k] == xs[k + 1];
        }
      }
      assert xs[0] !in rest;
      if p(xs[0]) {
        var r := [xs[0]] + rest;
        forall i, j | 0 <= i < j < |r| ensures r[i] != r[j] {
          if i == 0 {
            assert r[j] == rest[j - 1];
            assert r[j] in rest;
          } else {
            assert r[i] == rest[i - 1] && r[j] == rest[j - 1];
          }
        }
      }
    }
  }

  /** The set of elements of a sequence. */
  function Elements<T>(xs: seq<T>): set<T> {
    set x | x in xs
  }

  lemma ElementsCons<T>(xs: seq<T>)
    requires xs != []
    ensures Elements(xs) == {xs[0]} + Elements(xs[1..])
  {
    assert xs == [xs[0]] + xs[1..];
  }

  /** A duplicate-free sequence has as many elements as its set of elements. */
  lemma {:induction false} DistinctCard<T>(xs: seq<T>)
    requires Distinct(xs)
    ensures |Elements(xs)| == |xs|
  {
    if xs != [] {
      var tail := xs[1..];
      assert Distinct(tail) by {
        forall i, j | 0 <= i < j < |tail| ensures tail[i] != tail[j] {
          assert tail[i] == xs[i + 1] && tail[j] == xs[j + 1];
        }
      }
      DistinctCard(tail);
      assert xs[0] !in tail by {
        forall k | 0 <= k < |tail| ensures tail[k] != xs[0] {
          assert tail[k] == xs[k + 1];
        }
      }
      assert xs == [xs[0]] + tail;
      assert Elements(xs) == Elements(tail) + {xs[0]};
    }
  }
}

=== FILE: task_store.dfy ===
/**
  The in-memory store (`TASKS`, `REMINDERS`, `NOTIFICATIONS`) and the task endpoints
  that read and write it: create, get, full replace, partial update, delete and the
  status/progress/assignee shortcuts. Each operation takes the current store and returns
  the next one; a failure returns only the error, so a failed operation leaves the store
  as it was.
 */
module TaskStore {
  import opened Common
  import opened Model
  import Seqs
  import D = OrderedDict

  datatype Store = Store(
    tasks: D.Dict<Task>,
    reminders: D.Dict<Reminder>,
    notifications: D.Dict<Notification>)

  /** Every record sits under its own id and every task respects the field bounds. */
  ghost predicate Valid(s: Store) {
    && D.Valid(s.tasks) && D.Valid(s.reminders) && D.Valid(s.notifications)
    && (forall k :: k in s.tasks.entries ==> s.tasks.entries[k].id == k && ValidBase(s.tasks.entries[k].base))
    && (forall k :: k in s.reminders.entries ==> s.reminders.entries[k].id == k)
    && (forall k :: k in s.notifications.entries ==> s.notifications.entries[k].id == k)
  }

  function EmptyStore(): (s: Store)
    ensures Valid(s)
    ensures |s.tasks.entries| == 0 && |s.reminders.entries| == 0 && |s.notifications.entries| == 0
  {
    Store(D.Empty(), D.Empty(), D.Empty())
  }

  /** `s'` is `s` with the task under `id` set to `t`, in place: nothing else differs. */
  ghost predicate OnlyTaskChanged(s: Store, s': Store, id: Id, t: Task) {
    && s'.tasks.entries == s.tasks.entries[id := t]
    && s'.tasks.order == s.tasks.order
    && s'.reminders == s.reminders
    && s'.notifications == s.notifications
  }

  /** Store a new version of a task that is already present (`TASKS[task_id] = updated`). */
  function Overwrite(s: Store, t: Task): (s': Store)
    requires Valid(s)
    requires t.id in s.tasks.entries && ValidBase(t.base)
    ensures Valid(s')
    ensures OnlyTaskChanged(s, s', t.id, t)
  {
    s.(tasks := D.Put(s.tasks, t.id, t))
  }

  /** `create_task`: a new task under the fresh id, stamped `now`, with no team. */
  function CreateTask(s: Store, payload: TaskBase, id: Id, creator: Id, now: Time): (r: (Store, Task))
    requires Valid(s) && ValidBase(payload)
    requires id !in s.tasks.entries
    ensures var (s', t) := r;
      && Valid(s')
      && t.id == id && t.base == payload
      && t.creatorId == Some(creator) && t.teamId == None
      && t.createdAt == now && t.updatedAt == now
      && s'.tasks.entries == s.tasks.entries[id := t]
      && s'.tasks.order == s.tasks.order + [id]
      && s'.reminders == s.reminders && s'.notifications == s.notifications
  {
    var t := Task(id, payload, Some(creator), None, now, now);
    (s.(tasks := D.Put(s.tasks, id, t)), t)
  }

  /** `get_task`. */
  function GetTask(s: Store, id: Id): (r: Result<Task>)
    ensures r.Err? <==> id !in s.tasks.entries
    ensures r.Err? ==> r.error == TaskNotFound
    ensures r.Ok? ==> r.value == s.tasks.entries[id]
  {
    if id in s.tasks.entries then Ok(s.tasks.entries[id]) else Err(TaskNotFound)
  }

  /** `replace_task`: new editable fields; id, creation time, creator and team kept. */
  function ReplaceTask(s: Store, id: Id, payload: TaskBase, now: Time): (r: Result<(Store, Task)>)
    requires Valid(s) && ValidBase(payload)
    ensures r.Err? <==> id !in s.tasks.entries
    ensures r.Err? ==> r.error == TaskNotFound
    ensures r.Ok? ==> var (s', t) := r.value; var before := s.tasks.entries[id];
      && Valid(s') && OnlyTaskChanged(s, s', id, t)
      && t.id == id && t.base == payload && t.updatedAt == now
      && t.createdAt == before.createdAt && t.creatorId == before.creatorId && t.teamId == before.teamId
  {
    if id !in s.tasks.entries then Err(TaskNotFound)
    else
      var before := s.tasks.entries[id];
      var t := Task(id, payload, before.creatorId, before.teamId, before.createdAt, now);
      Ok((Overwrite(s, t), t))
  }

  /** `update_task`: only the fields the patch gives change, plus `updated_at`. */
  function UpdateTask(s: Store, id: Id, patch: TaskPatch, now: Time): (r: Result<(Store, Task)>)
    requires Valid(s) && ValidPatch(patch)
    ensures r.Err? <==> id !in s.tasks.entries
    ensures r.Err? ==> r.error == TaskNotFound
    ensures r.Ok? ==> var (s', t) := r.value; var before := s.tasks.entries[id];
      && Valid(s') && OnlyTaskChanged(s, s', id, t)
      && t.base == ApplyPatch(before.base, patch) && t.updatedAt == now
      && t.id == id && t.createdAt == before.createdAt
      && t.creatorId == before.creatorId && t.teamId == before.teamId
  {
    if id !in s.tasks.entries then Err(TaskNotFound)
    else
      var before := s.tasks.entries[id];
      var t := before.(base := ApplyPatch(before.base, patch), updatedAt := now);
      Ok((Overwrite(s, t), t))
  }

  /** `delete_task`: removes the task and nothing else; its reminders stay behind. */
  function DeleteTask(s: Store, id: Id): (r: Result<Store>)
    requires Valid(s)
    ensures r.Err? <==> id !in s.tasks.entries
    ensures r.Err? ==> r.error == TaskNotFound
    ensures r.Ok? ==>
      && Valid(r.value)
      && r.value.tasks.entries == s.tasks.entries - {id}
      && r.value.tasks.order == Seqs.Keep(s.tasks.order, D.Except(id))
      && r.value.reminders == s.reminders && r.value.notifications == s.notifications
  {
    if id !in s.tasks.entries then Err(TaskNotFound)
    else Ok(s.(tasks := D.Remove(s.tasks, id)))
  }

  /** `set_status`. */
  function SetStatus(s: Store, id: Id, status: Status, now: Time): (r: Result<(Store, Task)>)
    requires Valid(s)
    ensures r.Err? <==> id !in s.tasks.entries
    ensures r.Err? ==> r.error == TaskNotFound
    ensures r.Ok? ==> var (s', t) := r.value; var before := s.tasks.entries[id];
      && Valid(s') && OnlyTaskChanged(s, s', id, t)
      && t == before.(base := before.base.(status := status), updatedAt := now)
  {
    if id !in s.tasks.entries then Err(TaskNotFound)
    else
      var t := WithStatus(s.tasks.entries[id], status, now);
      Ok((Overwrite(s, t), t))
  }

  /** `set_progress`: the new value is within the bounds the request schema enforces. */
  function SetProgress(s: Store, id: Id, progress: int, now: Time): (r: Result<(Store, Task)>)
    requires Valid(s) && ValidProgress(progress)
    ensures r.Err? <==> id !in s.tasks.entries
    ensures r.Err? ==> r.error == TaskNotFound
    ensures r.Ok? ==> var (s', t) := r.value; var before := s.tasks.entries[id];
      && Valid(s') && OnlyTaskChanged(s, s', id, t)
      && t == before.(base := before.base.(progress := progress), updatedAt := now)
      && ProgressMin <= t.base.progress <= ProgressMax
  {
    if id !in s.tasks.entries then Err(TaskNotFound)
    else
      var before := s.tasks.entries[id];
      var t := before.(base := before.base.(progress := progress), updatedAt := now);
      Ok((Overwrite(s, t), t))
  }

  /** `set_assignee`: the assignee may be cleared. */
  function SetAssignee(s: Store, id: Id, assignee: Option<Id>, now: Time): (r: Result<(Store, Task)>)
    requires Valid(s)
    ensures r.Err? <==> id !in s.tasks.entries
    ensures r.Err? ==> r.error == TaskNotFound
    ensures r.Ok? ==> var (s', t) := r.value; var before := s.tasks.entries[id];
      && Valid(s') && OnlyTaskChanged(s, s', id, t)
      && t == before.(base := before.base.(assigneeId := assignee), updatedAt := now)
  {
    if id !in s.tasks.entries then Err(TaskNotFound)
    else
      var before := s.tasks.entries[id];
      var t := before.(base := before.base.(assigneeId := assignee), updatedAt := now);
      Ok((Overwrite(s, t), t))
  }

  /** A full replace is a partial update that gives every field. */
  lemma ReplaceIsFullUpdate(s: Store, id: Id, payload: TaskBase, now: Time)
    requires Valid(s) && ValidBase(payload)
    ensures ReplaceTask(s, id, payload, now) == UpdateTask(s, id, FullPatch(payload), now)
  {
  }

  /** Each shortcut is the partial update that gives only its one field. */
  lemma ShortcutsAreUpdates(s: Store, id: Id, status: Status, progress: int, assignee: Option<Id>, now: Time)
    requires Valid(s) && ValidProgress(progress)
    ensures SetStatus(s, id, status, now) == UpdateTask(s, id, StatusPatch(status), now)
    ensures SetProgress(s, id, progress, now) == UpdateTask(s, id, ProgressPatch(progress), now)
    ensures SetAssignee(s, id, assignee, now) == UpdateTask(s, id, AssigneePatch(assignee), now)
  {
  }

  /** A created task can be read back, and a deleted one cannot. */
  lemma CreateGetDelete(s: Store, payload: TaskBase, id: Id, creator: Id, now: Time)
    requires Valid(s) && ValidBase(payload) && id !in s.tasks.entries
    ensures var (s', t) := CreateTask(s, payload, id, creator, now);
      && GetTask(s', id) == Ok(t)
      && DeleteTask(s', id).Ok?
      && GetTask(DeleteTask(s', id).value, id) == Err(TaskNotFound)
      && DeleteTask(s', id).value.tasks.entries == s.tasks.entries
  {
  }

  /** Creating a task and then deleting it gives back the store it started from. */
  lemma CreateThenDeleteRestores(s: Store, payload: TaskBase, id: Id, creator: Id, now: Time)
    requires Valid(s) && ValidBase(payload) && id !in s.tasks.entries
    ensures DeleteTask(CreateTask(s, payload, id, creator, now).0, id) == Ok(s)
  {
    var s' := CreateTask(s, payload, id, creator, now).0;
    assert id !in s.tasks.order;
    Seqs.KeepAppend(s.tasks.order, [id], D.Except(id));
    Seqs.KeepAll(s.tasks.order, D.Except(id));
    assert Seqs.Keep(s'.tasks.order, D.Except(id)) == s.tasks.order;
    assert s'.tasks.entries - {id} == s.tasks.entries;
  }
}

=== FILE: text.dfy ===
/**
  The string operations the task search uses: `str.lower()`, the substring test
  `needle in hay` and `hay.find(needle)`. Lower-casing is modelled on ASCII letters only.
 */
module Text {

  function LowerChar(c: char): char {
    if 'A' <= c <= 'Z' then (c as int + 32) as char else c
  }

  /**
    `s.lower()`, restricted to ASCII case folding: no upper-case letter is left, every
    other character stays, and each upper-case letter becomes its lower-case partner.
   */
  function Lower(s: string): (r: string)
    ensures |r| == |s|
    ensures forall i :: 0 <= i < |r| ==> !('A' <= r[i] <= 'Z')
    ensures forall i :: 0 <= i < |s| && !('A' <= s[i] <= 'Z') ==> r[i] == s[i]
    ensures forall i :: 0 <= i < |s| && 'A' <= s[i] <= 'Z' ==> r[i] as int == s[i] as int + 32
  {
    seq(|s|, i requires 0 <= i < |s| => LowerChar(s[i]))
  }

  /** Lower-casing twice is lower-casing once. */
  lemma LowerIdempotent(s: string)
    ensures Lower(Lower(s)) == Lower(s)
  {
  }

  /** `needle` starts at position `i` of `hay`. */
  ghost predicate OccursAt(needle: string, hay: string, i: int) {
    0 <= i && i + |needle| <= |hay| && hay[i..i + |needle|] == needle
  }

  ghost predicate Occurs(needle: string, hay: string) {
    exists i :: OccursAt(needle, hay, i)
  }

  /** Python's `needle in hay` for strings. */
  function Contains(hay: string, needle: string): bool
    decreases |hay|
  {
    if needle <= hay then true
    else if hay == [] then false
    else Contains(hay[1..], needle)
  }

  /** `needle in hay` holds exactly when `needle` occurs somewhere in `hay`. */
  lemma {:induction false} ContainsIsOccurs(hay: string, needle: string)
    ensures Contains(hay, needle) <==> Occurs(needle, hay)
    decreases |hay|
  {
    if needle <= hay {
      assert OccursAt(needle, hay, 0);
    } else if hay != [] {
      var tail := hay[1..];
      ContainsIsOccurs(tail, needle);
      if Occurs(needle, tail) {
        var i :| OccursAt(needle, tail, i);
        assert hay[i + 1..i + 1 + |needle|] == tail[i..i + |needle|];
        assert OccursAt(needle, hay, i + 1);
      }
      if Occurs(needle, hay) {
        var i :| OccursAt(needle, hay, i);
        if i != 0 {
          assert tail[i - 1..i - 1 + |needle|] == hay[i..i + |needle|];
          assert OccursAt(needle, tail, i - 1);
        }
      }
    }
  }

  /** `hay.find(needle, start)`: the first position at or after `start` where `needle` occurs, or -1. */
  function FindFrom(hay: string, needle: string, start: nat): (r: int)
    ensures r == -1 || (start <= r && OccursAt(needle, hay, r))
    ensures forall j :: start <= j && (r == -1 || j < r) ==> !OccursAt(needle, hay, j)
    decreases |hay| - start
  {
    if start + |needle| > |hay| then -1
    else if hay[start..start + |needle|] == needle then start
    else FindFrom(hay, needle, start + 1)
  }

  /** `hay.find(needle)`. */
  function Find(hay: string, needle: string): (r: int)
    ensures r >= 0 <==> Occurs(needle, hay)
    ensures r >= 0 ==> OccursAt(needle, hay, r) && forall j :: 0 <= j < r ==> !OccursAt(needle, hay, j)
  {
    FindFrom(hay, needle, 0)
  }

  /** The two ways the search spells a substring test agree. */
  lemma FindAgreesWithContains(hay: string, needle: string)
    ensures Find(hay, needle) >= 0 <==> Contains(hay, needle)
  {
    ContainsIsOccurs(hay, needle);
  }
}
